=== FILE: README.md ===
# polls — validation, filtering and cascade rules, in Dafny

A model of the rules at the heart of the `polls` Django/DRF application:
administrators create polls, questions and choices; authenticated users list
the active polls, answer them and list their own past answers. What the
application decides — which poll dates are acceptable, when a poll's start
date may no longer change, which questions may carry choices, which answer
texts a question accepts, what a caller sees of other users' answers, which
polls are active, who may use which view, and what a delete takes with it —
is modelled as pure functions over immutable records, with proofs of the
properties the code and its tests promise.

Dates are integer day numbers and "today" is a parameter. Each table is a
sequence of records in insertion order; a record's `id` is its primary key.

| file | module | models |
|---|---|---|
| `results.dfy` | `Results` | `Option`, `Result`, `Outcome` and the four ways a request is refused |
| `pystr.dfy` | `PyStr` | Python's `str.split(';')` and its inverse `';'.join` |
| `seqs.dfy` | `Seqs` | order-preserving `Filter`, the shape of every `objects.filter` query |
| `models.dfy` | `Models` | question-type codes, the five records, `Poll.clean`, the `pre_save` hook and `save` |
| `cascade.dfy` | `Cascade` | `on_delete=CASCADE` deletes and the no-dangling-reference invariant |
| `serializers.dfy` | `Serializers` | the poll, choice and answer validators; answer redaction |
| `api_views.dfy` | `ApiViews` | per-view permissions, the active and done listings, the admin write paths |

Behaviours of the code a reader might not expect, which the model keeps:
- a text question accepts any answer text, including the empty one (the code
  never checks it; a blank check would come from the framework's field
  options, which are not modelled);
- a `'choice'` question refuses an answer with more than one `;`-separated
  piece counted as a list, not as a set, so `"a;a"` is refused too;
- the `pre_save` hook only compares start dates; a bare `save` never runs
  `Poll.clean`, so a finish date before the start date can be stored that way
  (only the serializer path prevents it);
- question types are stored strings; the three codes are `"text"`,
  `"choice"` and `"multiple choice"` (with a space).

## Model

| member | source | states |
|---|---|---|
| PyStr.Split | polls/serializers.py:95 | an answer splits into one more piece than it has `;` characters, and no piece contains `;` |
| PyStr.JoinSplit | polls/serializers.py:95 | joining the pieces with `;` gives back the original answer text: splitting loses nothing |
| PyStr.SplitJoin | polls/serializers.py:95 | splitting the `;`-join of `;`-free pieces gives back those pieces |
| PyStr.TrailingSeparator | polls/serializers.py:95 | a trailing `;` adds exactly one extra piece, the empty string, after the pieces of the text before it |
| Models.TypeCode | polls/models.py:25-33 | the text type is stored as `'text'`, the choice type as `'choice'`, the multiple-choice type as `'multiple choice'`; each is one of the field's codes, and only the text type is outside the choice-bearing list |
| Models.ParseQuestionType | polls/models.py:29-33 | a stored code is recognised exactly when it is one of the codes in the field's choices |
| Models.QuestionTypeRoundTrip | polls/models.py:25-33 | storing a type and reading it back are inverse in both directions |
| Models.ChoiceBearingTypes | polls/models.py:26-28 | a code is choice-bearing exactly when it is `'choice'` or `'multiple choice'`; the valid codes are those two plus `'text'` |
| Models.Clean | polls/models.py:16-18 | the ordering check passes exactly when the start date is not after the finish date, so equal dates pass |
| Models.FindPoll | polls/models.py:87-89 | the key lookup finds a stored record with the key, or reports that none is stored |
| Models.FindStored | polls/models.py:87 | with unique keys the lookup finds the one record stored under a key |
| Models.CheckDateStartIsChange | polls/models.py:84-92 | the hook never fails for a poll whose key is not yet stored; its only failure is the "can not be modify" error |
| Models.PreSaveVerdict | polls/models.py:90-92 | on a store with unique keys the hook passes exactly when the stored record under the key has the same start date |
| Models.Upsert | polls/tests/test_models.py:10-17 | a saved poll ends up stored, records under other keys stay, nothing else appears, a new key adds exactly one record, and keys stay unique |
| Models.SavePoll | polls/models.py:84-92 | saving a poll under a new key always succeeds and adds one record; a successful save is the insert-or-update of the instance: it is stored, every poll under another key stays, nothing else appears, and the other tables are left alone |
| Models.SaveRejectsStartChange | polls/tests/test_models.py:19-27 | saving a stored poll with a different start date fails, whatever the new value |
| Models.SaveKeepsStart | polls/models.py:91 | saving a stored poll with its start date unchanged succeeds and replaces it, however the other fields changed |
| Models.SaveIgnoresClean | polls/tests/test_api.py:111-113 | any stored poll saved with its start date kept and its finish date moved before it fails `clean` yet saves |
| Cascade.DeletePoll | polls/models.py:35-79 | deleting a poll removes it, its questions, its poll answers, the choices of its questions and the answers to its questions or in its poll answers; every other record stays; tables only shrink, in order |
| Cascade.DeleteQuestion | polls/models.py:49-69 | deleting a question removes it, its choices and its answers; everything else stays |
| Cascade.DeletePollAnswer | polls/models.py:60-81 | deleting a poll answer removes it and its answers; everything else stays |
| Cascade.DeleteChoice | polls/models.py:49-57 | deleting a choice removes only choices with that key |
| Cascade.DeleteAnswer | polls/models.py:60-73 | deleting an answer removes only answers with that key |
| Cascade.DeletePollNoDangling | polls/models.py:35-79 | after a poll deletion no foreign key names a missing record, and nothing refers to the deleted poll |
| Cascade.DeleteQuestionNoDangling | polls/models.py:49-69 | after a question deletion no foreign key names a missing record |
| Cascade.DeletePollAnswerNoDangling | polls/models.py:60-81 | after a poll-answer deletion no foreign key names a missing record |
| Cascade.DeleteLeafNoDangling | polls/models.py:49-73 | deleting a choice or an answer leaves no foreign key naming a missing record |
| Serializers.ValidatePoll | polls/serializers.py:24-33 | accepts, returning the data unchanged, exactly when today <= start <= finish; a past start is refused under `date_start` even when it is also after the finish; otherwise a start after the finish is refused under `date_finish` |
| Serializers.ValidatedPollIsClean | polls/serializers.py:24-33 | what the serializer accepts passes `Poll.clean`, and a clean poll starting today or later is accepted |
| Serializers.ValidateChoiceQuestion | polls/serializers.py:58-63 | a question is accepted, unchanged, exactly when its type is `'choice'` or `'multiple choice'`; otherwise the `question` field error |
| Serializers.ChoiceTexts | polls/serializers.py:92-94 | the texts listed are exactly those of the choices stored for the question |
| Serializers.Intersects | polls/serializers.py:96 | true exactly when the two lists share an element |
| Serializers.ValidateAnswer | polls/serializers.py:85-106 | text questions accept anything; otherwise the "must contain choice" error comes exactly when no piece is a choice text of the question, and the answer is accepted exactly when some piece is one and, for `'choice'`, it has no `;`; data is returned unchanged |
| Serializers.ChoiceAnswerIsOneChoice | polls/serializers.py:95-103 | a `'choice'` question accepts exactly a `;`-free answer equal to one of its choice texts |
| Serializers.ChoiceRefusesSeveralPieces | polls/serializers.py:100-103 | a `'choice'` question refuses two pieces even when both are valid, and a trailing `;` |
| Serializers.MultipleChoiceToleratesExtras | polls/serializers.py:92-99 | a `'multiple choice'` answer whose first piece is a choice text is accepted whatever pieces follow |
| Serializers.RenderAnswer | polls/serializers.py:111-119 | the owner sees the stored text; anyone else sees `''`; nothing non-empty is shown to a non-owner |
| Serializers.RenderAnswers | polls/serializers.py:109-123 | one value per answer, in order, never omitted: the text for the owner, `''` for others |
| ApiViews.Admits | polls/api_views.py:10-61 | anonymous callers are refused everywhere; staff are admitted everywhere; other users only by the active, answer-create and done views |
| ApiViews.AdminViewsDenyNonStaff | polls/api_views.py:13-49 | poll, question and choice list/detail views refuse a non-staff user and admit a staff one |
| ApiViews.ActivePolls | polls/api_views.py:23 | exactly the polls with finish date >= today, in store order, each as often as stored: a poll finishing today is active |
| ApiViews.DonePollAnswers | polls/api_views.py:63-65 | exactly the poll answers carrying the caller's user id, in store order, each as often as stored |
| ApiViews.ListActivePolls | polls/api_views.py:22-25 | refused exactly for anonymous callers; otherwise the listing is exactly the active-poll filter of the store: the unfinished polls, in store order, each as often as stored |
| ApiViews.ListDone | polls/api_views.py:58-65 | refused exactly for anonymous callers; otherwise the listing is exactly the per-user filter: the caller's poll answers, in store order, each as often as stored |
| ApiViews.CreatePoll | polls/api_views.py:10-13 | non-staff callers are refused and invalid dates get the serializer's error; a poll is created exactly when a staff caller sends dates with today <= start <= finish, and then the new record is appended with nothing else changed |
| ApiViews.UpdatePoll | polls/api_views.py:16-19 | non-staff callers are refused and a missing key is not found; with unique keys an update succeeds exactly for a staff caller, a stored key, today <= start <= finish and the stored start date, and then only that record is replaced |
| ApiViews.StartedPollIsFrozen | polls/serializers.py:25-28 | once a stored poll's start date is past, no update of it can succeed |
| ApiViews.CreateKeepsDatesOrdered | polls/serializers.py:29-32 | creation through the serializer keeps every stored poll's start no later than its finish |
| ApiViews.UpdateKeepsDatesOrdered | polls/serializers.py:29-32 | so does an update through the serializer |
| ApiViews.DestroyPoll | polls/api_views.py:16-19 | non-staff callers are refused and a missing key is not found; otherwise the result is exactly the cascade delete of the poll, which keeps every reference intact |
| ApiViews.CreateChoice | polls/serializers.py:58-68 | non-staff callers are refused and an unknown question key is not found; for a stored question the create succeeds exactly when its type is `'choice'` or `'multiple choice'`, and appends the choice with nothing else changed |
| ApiViews.CreateChoiceNoDangling | polls/serializers.py:65-68 | creating a choice keeps every reference intact |
| ApiViews.UpdateChoice | polls/api_views.py:46-49 | non-staff callers are refused and unknown keys are not found; for a stored choice and question the update succeeds exactly when the question is choice-bearing, so a choice is never moved onto a text question; only that choice is rewritten and the choice table keeps its size |
| ApiViews.UpdateChoiceNoDangling | polls/api_views.py:46-49 | updating a choice keeps every reference intact |

## Left out

- Answer submission (`PollAnswerSerializer`, the question-list matching and the all-or-nothing PollAnswer+Answer write): `polls/api_views.py:6` imports `PollAnswerSerializer`, but `polls/serializers.py` does not define it, so it is not part of this model; the "inactive poll" refusal depends on it.
- Routing (`polls/urls.py`) and `polls/routers.py`, which registers view sets that do not exist.
- JSON shapes: `QuestionField`, `ChoiceField`, `ActivePollSerializer`, `QuestionDoneSerializer`, `PollDoneSerializer`. The done view serializes `PollAnswer` records with a serializer declared for `Poll`; that rendering is not modelled; only the filter that selects the records and the per-answer redaction rule are.
- Framework checks: field lengths, blank values, the question-type field's choices on input, primary-key resolution (modelled only as `NotFound`), HTTP status codes, sessions, transactions.
- Partial updates (PATCH) that omit a date: the source compares a missing date and fails outside the modelled error paths.
- The pre-save hook raises a Django `ValidationError` inside the serializer's save, which DRF does not turn into a 400 response; the model reports it as `ModelError` without modelling the resulting server error.
- ApiViews.ActivePolls: the source evaluates "today" once, when the view class is defined; the model takes it as a parameter, so a long-running process's stale date is not modelled.
- Serializers.RenderAnswer: the source reads the caller from the request context and fails when there is none; the model always has a caller id.
- ApiViews.CreatePoll: the key the database assigns is a parameter required to be fresh; key allocation itself is not modelled.
- ApiViews.CreateChoice: likewise, the new choice's key is a parameter required to be fresh.
- Question create/update/delete and choice delete through the API: their views run no check of their own beyond permission and framework validation, so only the cascade functions model the deletes; choice create and update, which run `validate_question`, are modelled as `ApiViews.CreateChoice` and `ApiViews.UpdateChoice`.
- Serializers.RenderAnswers: the model maps the `AnswerField` rule over a question's answers, as the done view evidently intends. The source's `QuestionDoneSerializer` reads a relation named `answers` from a question, but a question's answers are reachable only under `question_answers`; `answers` is the name on `PollAnswer`. As written the rendering would not produce this list.

=== FILE: api_views.dfy ===
/** The views of `polls/api_views.py`: the permission each view demands, the
    two listing filters, and the admin write paths that run the validators
    and the save hook in sequence.

    The caller is an explicit parameter, as is `today` (the date the active
    listing compares against). */
module ApiViews {
  import opened Results
  import opened Models
  import Seqs
  import Cascade
  import Serializers

  /** Who sends the request. An anonymous caller is neither authenticated
      nor staff. */
  datatype Caller = Anonymous | Authenticated(id: int, isStaff: bool)

  /** The two DRF permission classes the views use. */
  datatype Permission = IsAdminUser | IsAuthenticated

  datatype View =
    | PollList | PollDetail | ActivePollList
    | QuestionList | QuestionDetail
    | ChoiceList | ChoiceDetail
    | AnswerCreate | PollDoneList

  /** Each view's `permission_classes`. */
  function PermissionOf(v: View): Permission
  {
    match v
    case ActivePollList | AnswerCreate | PollDoneList => IsAuthenticated
    case _ => IsAdminUser
  }

  /** `IsAdminUser` admits staff users; `IsAuthenticated` admits any logged-in user. */
  function HasPermission(p: Permission, c: Caller): bool
  {
    match p
    case IsAdminUser => c.Authenticated? && c.isStaff
    case IsAuthenticated => c.Authenticated?
  }

  /** The views every authenticated user may use. */
  predicate IsUserView(v: View)
  {
    v == ActivePollList || v == AnswerCreate || v == PollDoneList
  }

  /** Whether view `v` lets caller `c` in: anonymous callers never; staff
      everywhere; other users only on the active, answer and done views. */
  function Admits(v: View, c: Caller): (ok: bool)
    ensures c.Anonymous? ==> !ok
    ensures ok <==> c.Authenticated? && (c.isStaff || IsUserView(v))
  {
    HasPermission(PermissionOf(v), c)
  }

  /** Poll, question and choice management is closed to non-staff users. */
  lemma AdminViewsDenyNonStaff(v: View, id: int)
    requires !IsUserView(v)
    ensures !Admits(v, Authenticated(id, false))
    ensures Admits(v, Authenticated(id, true))
  {
  }

  // ---------------------------------------------------------------------
  // Listings

  /** `Poll.objects.filter(date_finish__gte=today)`: exactly the polls not yet
      finished, in store order; a poll finishing today is still active. */
  function ActivePolls(polls: seq<Poll>, today: int): (r: seq<Poll>)
    ensures forall p :: p in r <==> p in polls && p.dateFinish >= today
    ensures forall p :: multiset(r)[p] == if p.dateFinish >= today then multiset(polls)[p] else 0
    ensures Seqs.IsSubsequence(r, polls)
  {
    Seqs.Filter((p: Poll) => p.dateFinish >= today, polls)
  }

  /** `PollAnswer.objects.filter(user_id=user.id)`: exactly the caller's own
      poll answers, in store order. */
  function DonePollAnswers(pollAnswers: seq<PollAnswer>, userId: int): (r: seq<PollAnswer>)
    ensures forall pa :: pa in r <==> pa in pollAnswers && pa.userId == userId
    ensures forall pa :: multiset(r)[pa] == if pa.userId == userId then multiset(pollAnswers)[pa] else 0
    ensures Seqs.IsSubsequence(r, pollAnswers)
  {
    Seqs.Filter((pa: PollAnswer) => pa.userId == userId, pollAnswers)
  }

  /** GET on the active listing. */
  function ListActivePolls(c: Caller, db: Db, today: int): (r: Result<seq<Poll>>)
    ensures r.Err? <==> c.Anonymous?
    ensures r.Err? ==> r.error == PermissionDenied
    ensures r.Ok? ==> forall p :: p in r.value <==> p in db.polls && today <= p.dateFinish
    ensures r.Ok? ==> r.value == ActivePolls(db.polls, today)
  {
    if !Admits(ActivePollList, c) then Err(PermissionDenied)
    else Ok(ActivePolls(db.polls, today))
  }

  /** GET on the done listing: an authenticated caller sees only poll
      answers carrying their own user id. */
  function ListDone(c: Caller, db: Db): (r: Result<seq<PollAnswer>>)
    ensures r.Err? <==> c.Anonymous?
    ensures r.Err? ==> r.error == PermissionDenied
    ensures r.Ok? ==> forall pa :: pa in r.value <==> pa in db.pollAnswers && pa.userId == c.id
    ensures r.Ok? ==> r.value == DonePollAnswers(db.pollAnswers, c.id)
  {
    if !Admits(PollDoneList, c) then Err(PermissionDenied)
    else Ok(DonePollAnswers(db.pollAnswers, c.id))
  }

  // ---------------------------------------------------------------------
  // Admin writes

  /** POST on the poll list: permission, `PollSerializer.validate`, then the
      save with its pre_save hook. `newId` is the key the database assigns. */
  function CreatePoll(c: Caller, db: Db, data: Serializers.PollData, today: int, newId: int): (r: Result<Db>)
    requires forall p :: p in db.polls ==> p.id != newId
    ensures !Admits(PollList, c) ==> r == Err(PermissionDenied)
    ensures Admits(PollList, c) && Serializers.ValidatePoll(data, today).Err? ==>
              r == Err(Serializers.ValidatePoll(data, today).error)
    ensures r.Ok? <==> Admits(PollList, c) && today <= data.dateStart <= data.dateFinish
    ensures r.Ok? ==> r.value == db.(polls := db.polls + [Serializers.PollOf(newId, data)])
  {
    if !Admits(PollList, c) then Err(PermissionDenied)
    else
      match Serializers.ValidatePoll(data, today)
      case Err(e) => Err(e)
      case Ok(d) => SavePoll(db, Serializers.PollOf(newId, d))
  }

  /** PUT on a poll: permission, lookup, `PollSerializer.validate`, then the
      save with its pre_save hook. On a store with unique keys it succeeds
      exactly for a staff caller, a stored key, acceptable dates and the
      stored start date; it then replaces that one record. */
  function UpdatePoll(c: Caller, db: Db, pk: int, data: Serializers.PollData, today: int): (r: Result<Db>)
    ensures !Admits(PollDetail, c) ==> r == Err(PermissionDenied)
    ensures Admits(PollDetail, c) && (forall p :: p in db.polls ==> p.id != pk) ==> r == Err(NotFound)
    ensures UniquePollIds(db.polls) ==>
              (r.Ok? <==> && Admits(PollDetail, c)
                          && today <= data.dateStart <= data.dateFinish
                          && exists p :: p in db.polls && p.id == pk && p.dateStart == data.dateStart)
    ensures r.Ok? ==> r.value == db.(polls := Upsert(db.polls, Serializers.PollOf(pk, data)))
    ensures r.Ok? ==> Serializers.PollOf(pk, data) in r.value.polls
  {
    if !Admits(PollDetail, c) then Err(PermissionDenied)
    else if FindPoll(db.polls, pk).None? then Err(NotFound)
    else
      match Serializers.ValidatePoll(data, today)
      case Err(e) => Err(e)
      case Ok(d) =>
        PreSaveVerdict(db.polls, Serializers.PollOf(pk, d));
        SavePoll(db, Serializers.PollOf(pk, d))
  }

  /** Once a poll's start date has passed, no update of it can succeed: the
      serializer demands a start date no earlier than today, and the save
      hook demands the stored (earlier) one. */
  lemma StartedPollIsFrozen(c: Caller, db: Db, stored: Poll, data: Serializers.PollData, today: int)
    requires UniquePollIds(db.polls)
    requires stored in db.polls
    requires stored.dateStart < today
    ensures UpdatePoll(c, db, stored.id, data, today).Err?
  {
    if Admits(PollDetail, c) && today <= data.dateStart <= data.dateFinish {
      SaveRejectsStartChange(db, stored, Serializers.PollOf(stored.id, data));
    }
  }

  /** Every poll in the store is well ordered. */
  ghost predicate DatesOrdered(polls: seq<Poll>)
  {
    forall p :: p in polls ==> p.dateStart <= p.dateFinish
  }

  /** Creating a poll through the serializer keeps every stored poll's start
      date no later than its finish date. */
  lemma CreateKeepsDatesOrdered(c: Caller, db: Db, data: Serializers.PollData, today: int, newId: int)
    requires DatesOrdered(db.polls)
    requires forall p :: p in db.polls ==> p.id != newId
    ensures CreatePoll(c, db, data, today, newId).Ok? ==> DatesOrdered(CreatePoll(c, db, data, today, newId).value.polls)
  {
  }

  /** So does updating one: unlike a bare save, the serializer path never
      stores a finish date before the start date. */
  lemma UpdateKeepsDatesOrdered(c: Caller, db: Db, pk: int, data: Serializers.PollData, today: int)
    requires DatesOrdered(db.polls)
    ensures UpdatePoll(c, db, pk, data, today).Ok? ==> DatesOrdered(UpdatePoll(c, db, pk, data, today).value.polls)
  {
  }

  /** DELETE on a poll: permission, lookup, then the cascade. */
  function DestroyPoll(c: Caller, db: Db, pk: int): (r: Result<Db>)
    ensures !Admits(PollDetail, c) ==> r == Err(PermissionDenied)
    ensures Admits(PollDetail, c) && pk !in Cascade.PollIds(db) ==> r == Err(NotFound)
    ensures r.Ok? <==> Admits(PollDetail, c) && pk in Cascade.PollIds(db)
    ensures r.Ok? ==> r.value == Cascade.DeletePoll(db, pk)
    ensures r.Ok? ==> Cascade.NoDangling(db) ==> Cascade.NoDangling(r.value)
  {
    if !Admits(PollDetail, c) then Err(PermissionDenied)
    else if FindPoll(db.polls, pk).None? then Err(NotFound)
    else
      Cascade.DeletePollNoDangling(db, pk);
      Ok(Cascade.DeletePoll(db, pk))
  }

  /** `Question.objects.get(pk=pk)`: how the serializer resolves a question key. */
  function FindQuestion(db: Db, pk: int): Option<Question>
  {
    Seqs.Find(QuestionKey, db.questions, pk)
  }

  /** POST on the choice list: permission, resolution of the question key,
      `ChoiceSerializer.validate_question`, then the insert. `newId` is the
      key the database assigns. */
  function CreateChoice(c: Caller, db: Db, questionPk: int, text: string, newId: int): (r: Result<Db>)
    requires forall ch :: ch in db.choices ==> ch.id != newId
    ensures !Admits(ChoiceList, c) ==> r == Err(PermissionDenied)
    ensures Admits(ChoiceList, c) && (forall q :: q in db.questions ==> q.id != questionPk) ==> r == Err(NotFound)
    ensures Admits(ChoiceList, c) && FindQuestion(db, questionPk).Some? ==>
              (r.Ok? <==> FindQuestion(db, questionPk).value.questionType != TEXT
                          && ParseQuestionType(FindQuestion(db, questionPk).value.questionType).Some?)
    ensures r.Ok? ==> exists q :: q in db.questions && q.id == questionPk && q.questionType in QUESTION_CHOICE_TYPES
    ensures r.Ok? ==> r.value == db.(choices := db.choices + [Choice(newId, questionPk, text)])
  {
    if !Admits(ChoiceList, c) then Err(PermissionDenied)
    else
      match FindQuestion(db, questionPk)
      case None => Err(NotFound)
      case Some(q) =>
        match Serializers.ValidateChoiceQuestion(q)
        case Err(e) => Err(e)
        case Ok(q') =>
          ChoiceBearingTypes(q'.questionType);
          Ok(db.(choices := db.choices + [Choice(newId, q'.id, text)]))
  }

  /** Creating a choice through the API keeps every reference intact. */
  lemma CreateChoiceNoDangling(c: Caller, db: Db, questionPk: int, text: string, newId: int)
    requires Cascade.NoDangling(db)
    requires forall ch :: ch in db.choices ==> ch.id != newId
    ensures CreateChoice(c, db, questionPk, text, newId).Ok? ==>
              Cascade.NoDangling(CreateChoice(c, db, questionPk, text, newId).value)
  {
    var r := CreateChoice(c, db, questionPk, text, newId);
    if r.Ok? {
      var q :| q in db.questions && q.id == questionPk && q.questionType in QUESTION_CHOICE_TYPES;
      assert questionPk in Cascade.QuestionIds(r.value);
    }
  }

  /** Writes `updated` over every stored choice with its key. */
  function ReplaceChoice(choices: seq<Choice>, updated: Choice): (r: seq<Choice>)
    requires exists ch :: ch in choices && ch.id == updated.id
    ensures forall ch :: ch in r <==> (ch in choices && ch.id != updated.id) || ch == updated
    ensures |r| == |choices|
  {
    var r := seq(|choices|, i requires 0 <= i < |choices| => if choices[i].id == updated.id then updated else choices[i]);
    assert updated in r by {
      var k :| 0 <= k < |choices| && choices[k].id == updated.id;
      assert r[k] == updated;
    }
    assert forall ch :: ch in choices && ch.id != updated.id ==> ch in r by {
      forall ch | ch in choices && ch.id != updated.id
        ensures ch in r
      {
        var k :| 0 <= k < |choices| && choices[k] == ch;
        assert r[k] == ch;
      }
    }
    r
  }

  /** PUT on a choice: permission, lookup, resolution of the question key,
      `ChoiceSerializer.validate_question` (which runs on updates too), then
      the write. A choice can never be moved onto a text question. */
  function UpdateChoice(c: Caller, db: Db, pk: int, questionPk: int, text: string): (r: Result<Db>)
    ensures !Admits(ChoiceDetail, c) ==> r == Err(PermissionDenied)
    ensures Admits(ChoiceDetail, c) && (forall ch :: ch in db.choices ==> ch.id != pk) ==> r == Err(NotFound)
    ensures Admits(ChoiceDetail, c) && (forall q :: q in db.questions ==> q.id != questionPk) ==> r == Err(NotFound)
    ensures && Admits(ChoiceDetail, c)
            && (exists ch :: ch in db.choices && ch.id == pk)
            && FindQuestion(db, questionPk).Some? ==>
              (r.Ok? <==> FindQuestion(db, questionPk).value.questionType in QUESTION_CHOICE_TYPES)
    ensures r.Ok? ==> exists q :: q in db.questions && q.id == questionPk && q.questionType in QUESTION_CHOICE_TYPES
    ensures r.Ok? ==> r.value == db.(choices := r.value.choices)
    ensures r.Ok? ==> |r.value.choices| == |db.choices|
    ensures r.Ok? ==> forall ch :: ch in r.value.choices <==>
                        (ch in db.choices && ch.id != pk) || ch == Choice(pk, questionPk, text)
  {
    if !Admits(ChoiceDetail, c) then Err(PermissionDenied)
    else if Seqs.Find(ChoiceKey, db.choices, pk).None? then Err(NotFound)
    else
      match FindQuestion(db, questionPk)
      case None => Err(NotFound)
      case Some(q) =>
        match Serializers.ValidateChoiceQuestion(q)
        case Err(e) => Err(e)
        case Ok(q') =>
          ChoiceBearingTypes(q'.questionType);
          Ok(db.(choices := ReplaceChoice(db.choices, Choice(pk, q'.id, text))))
  }

  /** Updating a choice through the API keeps every reference intact. */
  lemma UpdateChoiceNoDangling(c: Caller, db: Db, pk: int, questionPk: int, text: string)
    requires Cascade.NoDangling(db)
    ensures UpdateChoice(c, db, pk, questionPk, text).Ok? ==>
              Cascade.NoDangling(UpdateChoice(c, db, pk, questionPk, text).value)
  {
    var r := UpdateChoice(c, db, pk, questionPk, text);
    if r.Ok? {
      var q :| q in db.questions && q.id == questionPk && q.questionType in QUESTION_CHOICE_TYPES;
      assert questionPk in Cascade.QuestionIds(r.value);
    }
  }
}

=== FILE: cascade.dfy ===
/** The foreign keys of `polls/models.py`, all declared with
    `on_delete=CASCADE`:

      Question.poll     -> Poll
      Choice.question   -> Question
      Answer.question   -> Question
      Answer.poll_answer -> PollAnswer
      PollAnswer.poll   -> Poll

    Deleting a record deletes, transitively, every record that refers to it,
    so the store never holds a reference to a missing record. */
module Cascade {
  import opened Models
  import Seqs

  function PollIds(db: Db): set<int> { set p | p in db.polls :: p.id }
  function QuestionIds(db: Db): set<int> { set q | q in db.questions :: q.id }
  function PollAnswerIds(db: Db): set<int> { set pa | pa in db.pollAnswers :: pa.id }

  /** Every foreign key names a stored record. */
  ghost predicate NoDangling(db: Db)
  {
    && (forall q :: q in db.questions ==> q.poll in PollIds(db))
    && (forall c :: c in db.choices ==> c.question in QuestionIds(db))
    && (forall a :: a in db.answers ==> a.question in QuestionIds(db) && a.pollAnswer in PollAnswerIds(db))
    && (forall pa :: pa in db.pollAnswers ==> pa.poll in PollIds(db))
  }

  /** Every table of `r` is an order-preserving selection of the same table of `db`. */
  ghost predicate Shrinks(db: Db, r: Db)
  {
    && Seqs.IsSubsequence(r.polls, db.polls)
    && Seqs.IsSubsequence(r.questions, db.questions)
    && Seqs.IsSubsequence(r.choices, db.choices)
    && Seqs.IsSubsequence(r.answers, db.answers)
    && Seqs.IsSubsequence(r.pollAnswers, db.pollAnswers)
  }

  lemma ShrinksRefl(db: Db)
    ensures Shrinks(db, db)
  {
    Seqs.SubsequenceRefl(db.polls);
    Seqs.SubsequenceRefl(db.questions);
    Seqs.SubsequenceRefl(db.choices);
    Seqs.SubsequenceRefl(db.answers);
    Seqs.SubsequenceRefl(db.pollAnswers);
  }

  /** Deletes the answers whose question or poll answer is gone. */
  function DropAnswers(answers: seq<Answer>, goneQuestions: set<int>, gonePollAnswers: set<int>): (r: seq<Answer>)
    ensures forall a :: a in r <==> a in answers && a.question !in goneQuestions && a.pollAnswer !in gonePollAnswers
    ensures Seqs.IsSubsequence(r, answers)
  {
    Seqs.Filter((a: Answer) => a.question !in goneQuestions && a.pollAnswer !in gonePollAnswers, answers)
  }

  /** Deletes the choices whose question is gone. */
  function DropChoices(choices: seq<Choice>, goneQuestions: set<int>): (r: seq<Choice>)
    ensures forall c :: c in r <==> c in choices && c.question !in goneQuestions
    ensures Seqs.IsSubsequence(r, choices)
  {
    Seqs.Filter((c: Choice) => c.question !in goneQuestions, choices)
  }

  /** The keys of the questions of poll `pk`. */
  function QuestionsOf(db: Db, pk: int): set<int>
  {
    set q | q in db.questions && q.poll == pk :: q.id
  }

  /** The keys of the poll answers of poll `pk`. */
  function PollAnswersOf(db: Db, pk: int): set<int>
  {
    set pa | pa in db.pollAnswers && pa.poll == pk :: pa.id
  }

  /** Deleting poll `pk`: its questions (with their choices and answers) and
      its poll answers (with their answers) go too; every other record stays. */
  function DeletePoll(db: Db, pk: int): (r: Db)
    ensures pk !in PollIds(r)
    ensures forall q :: q in r.questions <==> q in db.questions && q.poll != pk
    ensures forall pa :: pa in r.pollAnswers <==> pa in db.pollAnswers && pa.poll != pk
    ensures forall p :: p in r.polls <==> p in db.polls && p.id != pk
    ensures forall c :: c in r.choices <==> c in db.choices && c.question !in QuestionsOf(db, pk)
    ensures forall a :: a in r.answers <==>
              a in db.answers && a.question !in QuestionsOf(db, pk) && a.pollAnswer !in PollAnswersOf(db, pk)
    ensures Shrinks(db, r)
  {
    var goneQuestions := QuestionsOf(db, pk);
    var gonePollAnswers := PollAnswersOf(db, pk);
    Db(Seqs.Filter((p: Poll) => p.id != pk, db.polls),
       Seqs.Filter((q: Question) => q.poll != pk, db.questions),
       DropChoices(db.choices, goneQuestions),
       DropAnswers(db.answers, goneQuestions, gonePollAnswers),
       Seqs.Filter((pa: PollAnswer) => pa.poll != pk, db.pollAnswers))
  }

  /** Deleting question `pk`: its choices and answers go too. */
  function DeleteQuestion(db: Db, pk: int): (r: Db)
    ensures pk !in QuestionIds(r)
    ensures forall c :: c in r.choices <==> c in db.choices && c.question != pk
    ensures forall a :: a in r.answers <==> a in db.answers && a.question != pk
    ensures forall q :: q in r.questions <==> q in db.questions && q.id != pk
    ensures r.polls == db.polls && r.pollAnswers == db.pollAnswers
    ensures Shrinks(db, r)
  {
    Seqs.SubsequenceRefl(db.polls);
    Seqs.SubsequenceRefl(db.pollAnswers);
    Db(db.polls,
       Seqs.Filter((q: Question) => q.id != pk, db.questions),
       DropChoices(db.choices, {pk}),
       DropAnswers(db.answers, {pk}, {}),
       db.pollAnswers)
  }

  /** Deleting poll answer `pk`: its answers go too. */
  function DeletePollAnswer(db: Db, pk: int): (r: Db)
    ensures pk !in PollAnswerIds(r)
    ensures forall a :: a in r.answers <==> a in db.answers && a.pollAnswer != pk
    ensures forall pa :: pa in r.pollAnswers <==> pa in db.pollAnswers && pa.id != pk
    ensures r.polls == db.polls && r.questions == db.questions && r.choices == db.choices
    ensures Shrinks(db, r)
  {
    Seqs.SubsequenceRefl(db.polls);
    Seqs.SubsequenceRefl(db.questions);
    Seqs.SubsequenceRefl(db.choices);
    Db(db.polls, db.questions, db.choices,
       DropAnswers(db.answers, {}, {pk}),
       Seqs.Filter((pa: PollAnswer) => pa.id != pk, db.pollAnswers))
  }

  /** Deleting choice `pk`: nothing refers to a choice. */
  function DeleteChoice(db: Db, pk: int): (r: Db)
    ensures forall c :: c in r.choices <==> c in db.choices && c.id != pk
    ensures r == db.(choices := r.choices)
    ensures Shrinks(db, r)
  {
    ShrinksRefl(db);
    db.(choices := Seqs.Filter((c: Choice) => c.id != pk, db.choices))
  }

  /** Deleting answer `pk`: nothing refers to an answer. */
  function DeleteAnswer(db: Db, pk: int): (r: Db)
    ensures forall a :: a in r.answers <==> a in db.answers && a.id != pk
    ensures r == db.(answers := r.answers)
    ensures Shrinks(db, r)
  {
    ShrinksRefl(db);
    db.(answers := Seqs.Filter((a: Answer) => a.id != pk, db.answers))
  }

  /** A poll deletion leaves no dangling reference and no record that
      referred to the deleted poll. */
  lemma DeletePollNoDangling(db: Db, pk: int)
    ensures NoDangling(db) ==> NoDangling(DeletePoll(db, pk))
    ensures forall q :: q in DeletePoll(db, pk).questions ==> q.poll != pk
    ensures forall pa :: pa in DeletePoll(db, pk).pollAnswers ==> pa.poll != pk
  {
    if !NoDangling(db) { return; }
    var r := DeletePoll(db, pk);
    var goneQuestions := QuestionsOf(db, pk);
    var gonePollAnswers := PollAnswersOf(db, pk);
    forall q | q in r.questions ensures q.poll in PollIds(r) {
      var p :| p in db.polls && p.id == q.poll;
      assert p in r.polls;
    }
    forall pa | pa in r.pollAnswers ensures pa.poll in PollIds(r) {
      var p :| p in db.polls && p.id == pa.poll;
      assert p in r.polls;
    }
    forall c | c in r.choices ensures c.question in QuestionIds(r) {
      var q :| q in db.questions && q.id == c.question;
      assert q.poll != pk by { assert c.question !in goneQuestions; }
      assert q in r.questions;
    }
    forall a | a in r.answers ensures a.question in QuestionIds(r) && a.pollAnswer in PollAnswerIds(r) {
      var q :| q in db.questions && q.id == a.question;
      assert q.poll != pk by { assert a.question !in goneQuestions; }
      assert q in r.questions;
      var pa :| pa in db.pollAnswers && pa.id == a.pollAnswer;
      assert pa.poll != pk by { assert a.pollAnswer !in gonePollAnswers; }
      assert pa in r.pollAnswers;
    }
  }

  /** A question deletion leaves no dangling reference. */
  lemma DeleteQuestionNoDangling(db: Db, pk: int)
    requires NoDangling(db)
    ensures NoDangling(DeleteQuestion(db, pk))
  {
    var r := DeleteQuestion(db, pk);
    forall c | c in r.choices ensures c.question in QuestionIds(r) {
      var q :| q in db.questions && q.id == c.question;
      assert q in r.questions;
    }
    forall a | a in r.answers ensures a.question in QuestionIds(r) {
      var q :| q in db.questions && q.id == a.question;
      assert q in r.questions;
    }
  }

  /** A poll-answer deletion leaves no dangling reference. */
  lemma DeletePollAnswerNoDangling(db: Db, pk: int)
    requires NoDangling(db)
    ensures NoDangling(DeletePollAnswer(db, pk))
  {
    var r := DeletePollAnswer(db, pk);
    assert PollIds(r) == PollIds(db) && QuestionIds(r) == QuestionIds(db);
    forall a | a in r.answers ensures a.question in QuestionIds(r) && a.pollAnswer in PollAnswerIds(r) {
      assert a in db.answers && a.pollAnswer != pk;
      var pa :| pa in db.pollAnswers && pa.id == a.pollAnswer;
      assert pa in r.pollAnswers;
    }
    forall pa | pa in r.pollAnswers ensures pa.poll in PollIds(r) {
      assert pa in db.pollAnswers;
    }
  }

  /** Leaf deletions leave no dangling reference. */
  lemma DeleteLeafNoDangling(db: Db, pk: int)
    requires NoDangling(db)
    ensures NoDangling(DeleteChoice(db, pk))
    ensures NoDangling(DeleteAnswer(db, pk))
  {
  }
}

=== FILE: models.dfy ===
/** The relational records of the polls application (`polls/models.py`),
    the `Poll.clean` ordering check and the `pre_save` hook that freezes a
    poll's start date, together with the save it guards.

    Dates are day numbers; every table is a sequence of records in insertion
    order, and a record's `id` is its primary key. */
module Models {
  import opened Results
  import Seqs

  // ---------------------------------------------------------------------
  // Question types

  const TEXT: string := "text"
  const CHOICE: string := "choice"
  /** Note the space: the stored code is "multiple choice". */
  const MULTIPLE_CHOICE: string := "multiple choice"

  /** The types a Choice may attach to. */
  const QUESTION_CHOICE_TYPES: seq<string> := [CHOICE, MULTIPLE_CHOICE]

  /** The field's choices: stored code and human-readable label. */
  const QUESTION_TYPES: seq<(string, string)> :=
    [(TEXT, "Text"), (CHOICE, "Choice"), (MULTIPLE_CHOICE, "Multiple choice")]

  /** The three question types as an enumeration. */
  datatype QuestionType = TextQuestion | ChoiceQuestion | MultipleChoiceQuestion

  /** The code a question type is stored under. */
  function TypeCode(t: QuestionType): (code: string)
    ensures exists i :: 0 <= i < |QUESTION_TYPES| && QUESTION_TYPES[i].0 == code
    ensures t.TextQuestion? <==> code !in QUESTION_CHOICE_TYPES
    ensures t == TextQuestion <==> code == TEXT
    ensures t == ChoiceQuestion <==> code == CHOICE
    ensures t == MultipleChoiceQuestion <==> code == MULTIPLE_CHOICE
  {
    assert QUESTION_TYPES[0].0 == TEXT && QUESTION_TYPES[1].0 == CHOICE && QUESTION_TYPES[2].0 == MULTIPLE_CHOICE;
    match t
    case TextQuestion => TEXT
    case ChoiceQuestion => CHOICE
    case MultipleChoiceQuestion => MULTIPLE_CHOICE
  }

  /** Reads a stored code back; `None` for anything outside the field's choices. */
  function ParseQuestionType(code: string): (r: Option<QuestionType>)
    ensures r.Some? <==> exists i :: 0 <= i < |QUESTION_TYPES| && QUESTION_TYPES[i].0 == code
  {
    assert QUESTION_TYPES[0].0 == TEXT && QUESTION_TYPES[1].0 == CHOICE && QUESTION_TYPES[2].0 == MULTIPLE_CHOICE;
    if code == TEXT then Some(TextQuestion)
    else if code == CHOICE then Some(ChoiceQuestion)
    else if code == MULTIPLE_CHOICE then Some(MultipleChoiceQuestion)
    else None
  }

  /** Storing a type and reading it back are inverse to each other. */
  lemma QuestionTypeRoundTrip(t: QuestionType, code: string)
    ensures ParseQuestionType(TypeCode(t)) == Some(t)
    ensures ParseQuestionType(code).Some? ==> TypeCode(ParseQuestionType(code).value) == code
  {
  }

  /** Exactly the two non-text types carry choices. */
  lemma ChoiceBearingTypes(code: string)
    ensures code in QUESTION_CHOICE_TYPES <==>
              ParseQuestionType(code) == Some(ChoiceQuestion) || ParseQuestionType(code) == Some(MultipleChoiceQuestion)
    ensures ParseQuestionType(code).Some? <==> code == TEXT || code in QUESTION_CHOICE_TYPES
  {
  }

  // ---------------------------------------------------------------------
  // Records

  datatype Poll = Poll(id: int, name: string, description: string, dateStart: int, dateFinish: int)

  /** `questionType` is the stored code; see `ParseQuestionType`. */
  datatype Question = Question(id: int, poll: int, questionType: string, text: string)

  datatype Choice = Choice(id: int, question: int, text: string)

  datatype Answer = Answer(id: int, userId: int, pollAnswer: int, question: int, answer: string)

  datatype PollAnswer = PollAnswer(id: int, poll: int, userId: int)

  /** The five tables. */
  datatype Db = Db(
    polls: seq<Poll>,
    questions: seq<Question>,
    choices: seq<Choice>,
    answers: seq<Answer>,
    pollAnswers: seq<PollAnswer>)

  /** The primary keys of the records. */
  function PollKey(p: Poll): int { p.id }
  function QuestionKey(q: Question): int { q.id }
  function ChoiceKey(c: Choice): int { c.id }

  /** Primary keys are unique in the poll table. */
  ghost predicate UniquePollIds(polls: seq<Poll>)
  {
    Seqs.UniqueKeys(PollKey, polls)
  }

  // ---------------------------------------------------------------------
  // Poll.clean

  const FINISH_BEFORE_START: string := "Finish date must be same or after start date."
  const START_CHANGED: string := "Start date can not be modify."

  /** `Poll.clean`: the finish date may not precede the start date. */
  function Clean(p: Poll): (r: Outcome)
    ensures r.Pass? <==> p.dateStart <= p.dateFinish
    ensures r.Fail? ==> r.error == ModelError(FINISH_BEFORE_START)
  {
    if p.dateStart > p.dateFinish then Fail(ModelError(FINISH_BEFORE_START)) else Pass
  }

  // ---------------------------------------------------------------------
  // Lookup by primary key and the pre_save hook

  /** `Poll.objects.get(pk=pk)`, or `None` for `DoesNotExist`. */
  function FindPoll(polls: seq<Poll>, pk: int): (r: Option<Poll>)
    ensures r.None? <==> forall p :: p in polls ==> p.id != pk
    ensures r.Some? ==> r.value in polls && r.value.id == pk
  {
    Seqs.Find(PollKey, polls, pk)
  }

  /** With unique keys the lookup finds the one record stored under a key. */
  lemma FindStored(polls: seq<Poll>, p: Poll)
    requires UniquePollIds(polls)
    requires p in polls
    ensures FindPoll(polls, p.id) == Some(p)
  {
    Seqs.FindStored(PollKey, polls, p);
  }

  /** `check_date_start_is_change`: a record that already exists may only be
      saved with its stored start date; a new record always passes. */
  function CheckDateStartIsChange(polls: seq<Poll>, instance: Poll): (r: Outcome)
    ensures (forall p :: p in polls ==> p.id != instance.id) ==> r == Pass
    ensures r.Fail? ==> r.error == ModelError(START_CHANGED)
  {
    match FindPoll(polls, instance.id)
    case None => Pass
    case Some(obj) =>
      if !(obj.dateStart == instance.dateStart) then Fail(ModelError(START_CHANGED)) else Pass
  }

  /** On a store with unique keys the hook passes exactly when every record
      stored under the instance's key has the instance's start date: saving
      an existing poll with a changed start date always fails, whatever the
      new value, and saving it with the same start date always passes,
      whatever else changed. */
  lemma PreSaveVerdict(polls: seq<Poll>, instance: Poll)
    ensures UniquePollIds(polls) ==>
              (CheckDateStartIsChange(polls, instance).Pass? <==>
                 forall p :: p in polls && p.id == instance.id ==> p.dateStart == instance.dateStart)
  {
    if !UniquePollIds(polls) { return; }
    forall p | p in polls && p.id == instance.id
      ensures FindPoll(polls, instance.id) == Some(p)
    {
      FindStored(polls, p);
    }
  }

  // ---------------------------------------------------------------------
  // Model.save for polls

  /** Writes `instance` into the table: it replaces the record stored under
      its key, or is appended when the key is new. */
  function Upsert(polls: seq<Poll>, instance: Poll): (r: seq<Poll>)
    ensures instance in r
    ensures forall p :: p in polls && p.id != instance.id ==> p in r
    ensures forall p :: p in r ==> p == instance || (p in polls && p.id != instance.id)
    ensures |r| == if FindPoll(polls, instance.id).None? then |polls| + 1 else |polls|
    ensures UniquePollIds(polls) ==> UniquePollIds(r)
  {
    if FindPoll(polls, instance.id).None? then
      assert (polls + [instance])[|polls|] == instance;
      polls + [instance]
    else
      var r := seq(|polls|, i requires 0 <= i < |polls| => if polls[i].id == instance.id then instance else polls[i]);
      assert instance in r by {
        var k :| 0 <= k < |polls| && polls[k] == FindPoll(polls, instance.id).value;
        assert r[k] == instance;
      }
      assert forall p :: p in polls && p.id != instance.id ==> p in r by {
        forall p | p in polls && p.id != instance.id
          ensures p in r
        {
          var k :| 0 <= k < |polls| && polls[k] == p;
          assert r[k] == p;
        }
      }
      r
  }

  /** `poll.save()`: runs the pre_save hook, then writes. Saving does not
      call `Clean`. */
  function SavePoll(db: Db, instance: Poll): (r: Result<Db>)
    ensures (forall p :: p in db.polls ==> p.id != instance.id) ==> r.Ok? && |r.value.polls| == |db.polls| + 1
    ensures r.Ok? ==> instance in r.value.polls
    ensures r.Ok? ==> r.value.polls == Upsert(db.polls, instance)
    ensures r.Ok? ==> forall p :: p in r.value.polls <==> p == instance || (p in db.polls && p.id != instance.id)
    ensures r.Ok? ==> r.value.questions == db.questions && r.value.choices == db.choices
                      && r.value.answers == db.answers && r.value.pollAnswers == db.pollAnswers
    ensures r.Err? ==> r.error == ModelError(START_CHANGED)
  {
    match CheckDateStartIsChange(db.polls, instance)
    case Fail(e) => Err(e)
    case Pass => Ok(db.(polls := Upsert(db.polls, instance)))
  }

  /** Saving an existing poll with a different start date always fails,
      whatever the new value. */
  lemma SaveRejectsStartChange(db: Db, stored: Poll, instance: Poll)
    requires UniquePollIds(db.polls)
    requires stored in db.polls && stored.id == instance.id
    requires stored.dateStart != instance.dateStart
    ensures SavePoll(db, instance) == Err(ModelError(START_CHANGED))
  {
    PreSaveVerdict(db.polls, instance);
  }

  /** Saving an existing poll with its stored start date always succeeds and
      replaces the stored record, however the other fields changed. */
  lemma SaveKeepsStart(db: Db, stored: Poll, instance: Poll)
    requires UniquePollIds(db.polls)
    requires stored in db.polls && stored.id == instance.id
    requires stored.dateStart == instance.dateStart
    ensures SavePoll(db, instance).Ok?
    ensures FindPoll(SavePoll(db, instance).value.polls, instance.id) == Some(instance)
    ensures |SavePoll(db, instance).value.polls| == |db.polls|
  {
    PreSaveVerdict(db.polls, instance);
    FindStored(db.polls, stored);
    var r := SavePoll(db, instance).value.polls;
    FindStored(r, instance);
  }

  /** Because saving skips `Clean`, a stored poll can be saved with its
      finish date moved before its (unchanged) start date. */
  lemma SaveIgnoresClean(db: Db, stored: Poll, instance: Poll)
    requires UniquePollIds(db.polls)
    requires stored in db.polls && stored.id == instance.id
    requires instance.dateStart == stored.dateStart
    requires instance.dateFinish < instance.dateStart
    ensures Clean(instance).Fail?
    ensures SavePoll(db, instance).Ok?
  {
    SaveKeepsStart(db, stored, instance);
  }
}

=== FILE: pystr.dfy ===
/** Python's `str.split(sep)` with an explicit one-character separator, and
    its inverse `sep.join(parts)`.

    With an explicit separator Python never drops empty pieces:
    `"".split(";") == [""]`, `"a;".split(";") == ["a", ""]`, and the number of
    pieces is always one more than the number of separators. */
module PyStr {

  /** Number of occurrences of `c` in `s`. */
  function Count(s: string, c: char): (n: nat)
    ensures n <= |s|
    ensures n == 0 <==> c !in s
  {
    if |s| == 0 then 0 else (if s[0] == c then 1 else 0) + Count(s[1..], c)
  }

  /** `s.split(sep)`. */
  function Split(s: string, sep: char): (parts: seq<string>)
    ensures |parts| == Count(s, sep) + 1
    ensures forall i :: 0 <= i < |parts| ==> sep !in parts[i]
  {
    if |s| == 0 then [""]
    else
      var rest := Split(s[1..], sep);
      if s[0] == sep then [""] + rest
      else [[s[0]] + rest[0]] + rest[1..]
  }

  /** `sep.join(parts)`: the reference inverse of `Split`. */
  function Join(parts: seq<string>, sep: char): string
  {
    if |parts| == 0 then ""
    else if |parts| == 1 then parts[0]
    else parts[0] + [sep] + Join(parts[1..], sep)
  }

  /** Splitting loses nothing: joining the pieces back gives the original string. */
  lemma {:induction false} JoinSplit(s: string, sep: char)
    ensures Join(Split(s, sep), sep) == s
  {
    if |s| > 0 {
      var rest := Split(s[1..], sep);
      JoinSplit(s[1..], sep);
      if s[0] == sep {
        assert Split(s, sep) == [""] + rest;
        assert ([""] + rest)[1..] == rest;
        assert s == [sep] + s[1..];
      } else if |rest| == 1 {
        assert Split(s, sep) == [[s[0]] + rest[0]];
        assert s == [s[0]] + s[1..];
      } else {
        var parts := [[s[0]] + rest[0]] + rest[1..];
        assert Split(s, sep) == parts;
        assert parts[1..] == rest[1..];
        assert Join(rest, sep) == rest[0] + [sep] + Join(rest[1..], sep);
        assert s == [s[0]] + s[1..];
      }
    }
  }

  /** Prepending a separator-free prefix only extends the first piece. */
  lemma {:induction false} SplitPrefix(p: string, t: string, sep: char)
    requires sep !in p
    ensures Split(p + t, sep) == [p + Split(t, sep)[0]] + Split(t, sep)[1..]
  {
    if |p| > 0 {
      SplitPrefix(p[1..], t, sep);
      assert (p + t)[1..] == p[1..] + t;
      assert (p + t)[0] == p[0];
      assert [p[0]] + (p[1..] + Split(t, sep)[0]) == p + Split(t, sep)[0];
    } else {
      assert p + t == t;
      var parts := Split(t, sep);
      assert p + parts[0] == parts[0];
      assert [parts[0]] + parts[1..] == parts;
    }
  }

  /** A string with no separator splits into itself alone. */
  lemma SplitNoSeparator(s: string, sep: char)
    requires sep !in s
    ensures Split(s, sep) == [s]
  {
    SplitPrefix(s, "", sep);
    assert s + "" == s;
  }

  /** A separator-free piece placed before a separator is a piece of the result. */
  lemma SplitKeepsLeadingPiece(p: string, t: string, sep: char)
    requires sep !in p
    ensures Split(p + [sep] + t, sep) == [p] + Split(t, sep)
  {
    SplitPrefix(p, [sep] + t, sep);
    assert p + [sep] + t == p + ([sep] + t);
    assert ([sep] + t)[1..] == t;
    assert Split([sep] + t, sep) == [""] + Split(t, sep);
    assert p + "" == p;
  }

  /** Joining separator-free pieces and splitting again gives the pieces back. */
  lemma {:induction false} SplitJoin(parts: seq<string>, sep: char)
    requires |parts| >= 1
    requires forall i :: 0 <= i < |parts| ==> sep !in parts[i]
    ensures Split(Join(parts, sep), sep) == parts
  {
    if |parts| == 1 {
      SplitNoSeparator(parts[0], sep);
    } else {
      SplitJoin(parts[1..], sep);
      SplitKeepsLeadingPiece(parts[0], Join(parts[1..], sep), sep);
      assert [parts[0]] + parts[1..] == parts;
    }
  }

  /** A trailing separator always yields one extra, empty piece. */
  lemma {:induction false} TrailingSeparator(s: string, sep: char)
    ensures Split(s + [sep], sep) == Split(s, sep) + [""]
  {
    if |s| == 0 {
      assert [sep][1..] == "";
    } else {
      var t := s[1..];
      assert (s + [sep])[1..] == t + [sep];
      assert (s + [sep])[0] == s[0];
      TrailingSeparator(t, sep);
      var rest := Split(t, sep);
      if s[0] == sep {
        assert Split(s + [sep], sep) == [""] + (rest + [""]);
      } else {
        var rest' := rest + [""];
        assert rest'[0] == rest[0];
        assert rest'[1..] == rest[1..] + [""];
        assert Split(s + [sep], sep) == [[s[0]] + rest[0]] + (rest[1..] + [""]);
      }
    }
  }
}

=== FILE: results.dfy ===
/** Failure-carrying datatypes shared by the validators, the persistence hooks
    and the views. Each error kind corresponds to one way the Django/DRF
    application turns a request away. */
module Results {

  /** A value that may be missing, such as the result of a key lookup. */
  datatype Option<+T> = None | Some(value: T)

  /** Why a request or a write is refused.
      - FieldError: a DRF `serializers.ValidationError`, keyed by field name (HTTP 400);
      - ModelError: a Django `ValidationError` raised by a model hook, carrying only a message;
      - PermissionDenied: a permission class refused the caller (HTTP 403);
      - NotFound: a primary key that names no stored record. */
  datatype Error =
    | FieldError(field: string, message: string)
    | ModelError(message: string)
    | PermissionDenied
    | NotFound

  /** A value on success, an `Error` otherwise. */
  datatype Result<+T> = Ok(value: T) | Err(error: Error)

  /** A check that either passes or fails with an `Error`. */
  datatype Outcome = Pass | Fail(error: Error)
}

=== FILE: seqs.dfy ===
/** Order-preserving selection over sequences, the shape of every
    `objects.filter(...)` query the application runs over a table, and
    lookup by primary key, the shape of `objects.get(pk=...)`. */
module Seqs {
  import opened Results

  /** `a` can be obtained from `b` by deleting elements. */
  ghost predicate IsSubsequence<T>(a: seq<T>, b: seq<T>)
    decreases |b|
  {
    |a| == 0 || (|b| > 0 && ((a[0] == b[0] && IsSubsequence(a[1..], b[1..])) || IsSubsequence(a, b[1..])))
  }

  /** The elements of `s` satisfying `keep`, in their original order, each
      exactly as often as it occurs in `s`. */
  function Filter<T(!new)>(keep: T -> bool, s: seq<T>): (r: seq<T>)
    ensures |r| <= |s|
    ensures forall x :: x in r <==> x in s && keep(x)
    ensures forall x :: multiset(r)[x] == if keep(x) then multiset(s)[x] else 0
    ensures forall i :: 0 <= i < |r| ==> keep(r[i])
    ensures IsSubsequence(r, s)
  {
    if |s| == 0 then []
    else
      assert s == [s[0]] + s[1..];
      var rest := Filter(keep, s[1..]);
      if keep(s[0]) then
        assert ([s[0]] + rest)[1..] == rest;
        [s[0]] + rest
      else rest
  }

  /** Every sequence is a subsequence of itself. */
  lemma {:induction false} SubsequenceRefl<T>(s: seq<T>)
    ensures IsSubsequence(s, s)
  {
    if |s| > 0 {
      SubsequenceRefl(s[1..]);
    }
  }

  /** No two elements of `s` share a key. */
  ghost predicate UniqueKeys<T>(keyOf: T -> int, s: seq<T>)
  {
    forall i, j :: 0 <= i < j < |s| ==> keyOf(s[i]) != keyOf(s[j])
  }

  /** The first element of `s` whose key is `pk`, or `None` when no element
      has that key. */
  function Find<T(!new)>(keyOf: T -> int, s: seq<T>, pk: int): (r: Option<T>)
    ensures r.None? <==> forall x :: x in s ==> keyOf(x) != pk
    ensures r.Some? ==> r.value in s && keyOf(r.value) == pk
    ensures r.Some? ==> exists i :: 0 <= i < |s| && s[i] == r.value && forall j :: 0 <= j < i ==> keyOf(s[j]) != pk
  {
    if |s| == 0 then None
    else if keyOf(s[0]) == pk then Some(s[0])
    else
      assert s == [s[0]] + s[1..];
      var r := Find(keyOf, s[1..], pk);
      assert r.Some? ==> exists i :: 0 <= i < |s| && s[i] == r.value && forall j :: 0 <= j < i ==> keyOf(s[j]) != pk by {
        if r.Some? {
          var i :| 0 <= i < |s[1..]| && s[1..][i] == r.value && forall j :: 0 <= j < i ==> keyOf(s[1..][j]) != pk;
          assert s[i + 1] == r.value;
          forall j | 0 <= j < i + 1 ensures keyOf(s[j]) != pk {
            if j > 0 { assert s[j] == s[1..][j - 1]; }
          }
        }
      }
      r
  }

  /** With unique keys the lookup finds the one element stored under a key. */
  lemma {:induction false} FindStored<T(!new)>(keyOf: T -> int, s: seq<T>, x: T)
    requires UniqueKeys(keyOf, s)
    requires x in s
    ensures Find(keyOf, s, keyOf(x)) == Some(x)
  {
    if s[0] != x {
      var k :| 0 <= k < |s| && s[k] == x;
      assert k > 0;
      assert keyOf(s[0]) != keyOf(x);
      assert x in s[1..] by { assert s[k] == s[1..][k - 1]; }
      assert UniqueKeys(keyOf, s[1..]) by {
        forall i, j | 0 <= i < j < |s[1..]| ensures keyOf(s[1..][i]) != keyOf(s[1..][j]) {
          assert s[1..][i] == s[i + 1] && s[1..][j] == s[j + 1];
        }
      }
      FindStored(keyOf, s[1..], x);
    }
  }
}

=== FILE: serializers.dfy ===
/** The validation rules and the answer redaction of `polls/serializers.py`.
    Each validator returns the data it was given unchanged, or the error the
    serializer raises. */
module Serializers {
  import opened Results
  import opened Models
  import PyStr

  const START_BEFORE_TODAY: string := "Start date must be same or after today."
  const FINISH_BEFORE_START_FIELD: string := "Finish date must be same or after start date."
  const NOT_CHOICE_TYPE: string := "Question must have 'choice' or 'multiple choice' type, not 'text'."
  const NO_CHOICE: string := "Answer must contain choice."
  const ONLY_ONE_CHOICE: string := "Answer must contain only one choice."

  /** The writable fields a poll request carries. */
  datatype PollData = PollData(name: string, description: string, dateStart: int, dateFinish: int)

  /** The fields an answer request carries: the resolved question and the text. */
  datatype AnswerData = AnswerData(question: Question, answer: string)

  // ---------------------------------------------------------------------
  // PollSerializer.validate

  /** A start date before `today` is refused first (under `date_start`);
      then a start date after the finish date (under `date_finish`). */
  function ValidatePoll(data: PollData, today: int): (r: Result<PollData>)
    ensures r.Ok? <==> today <= data.dateStart <= data.dateFinish
    ensures r.Ok? ==> r.value == data
    ensures data.dateStart < today ==> r == Err(FieldError("date_start", START_BEFORE_TODAY))
    ensures today <= data.dateStart && data.dateStart > data.dateFinish ==>
              r == Err(FieldError("date_finish", FINISH_BEFORE_START_FIELD))
  {
    if data.dateStart < today then Err(FieldError("date_start", START_BEFORE_TODAY))
    else if data.dateStart > data.dateFinish then Err(FieldError("date_finish", FINISH_BEFORE_START_FIELD))
    else Ok(data)
  }

  /** The record a validated request describes. */
  function PollOf(id: int, data: PollData): Poll
  {
    Poll(id, data.name, data.description, data.dateStart, data.dateFinish)
  }

  /** Whatever the serializer accepts also passes the model's own `Clean`
      check; the serializer is the stricter of the two, since it also
      refuses start dates in the past. */
  lemma ValidatedPollIsClean(id: int, data: PollData, today: int)
    ensures ValidatePoll(data, today).Ok? ==> Clean(PollOf(id, data)).Pass?
    ensures Clean(PollOf(id, data)).Pass? && today <= data.dateStart ==> ValidatePoll(data, today).Ok?
  {
  }

  // ---------------------------------------------------------------------
  // ChoiceSerializer.validate_question

  /** A choice may attach only to a question of a choice-bearing type. The
      error is a field error on `question`. */
  function ValidateChoiceQuestion(q: Question): (r: Result<Question>)
    ensures r.Ok? <==> ParseQuestionType(q.questionType) == Some(ChoiceQuestion)
                       || ParseQuestionType(q.questionType) == Some(MultipleChoiceQuestion)
    ensures r.Ok? ==> r.value == q
    ensures r.Err? ==> r.error == FieldError("question", NOT_CHOICE_TYPE)
  {
    ChoiceBearingTypes(q.questionType);
    if q.questionType !in QUESTION_CHOICE_TYPES then Err(FieldError("question", NOT_CHOICE_TYPE))
    else Ok(q)
  }

  // ---------------------------------------------------------------------
  // AnswerSerializer.validate

  /** The texts of the choices stored for question `qid`
      (`Choice.objects.filter(question=question)`). */
  function ChoiceTexts(choices: seq<Choice>, qid: int): (texts: seq<string>)
    ensures forall t :: t in texts <==> exists c :: c in choices && c.question == qid && c.text == t
  {
    if |choices| == 0 then []
    else
      assert choices == [choices[0]] + choices[1..];
      var rest := ChoiceTexts(choices[1..], qid);
      if choices[0].question == qid then [choices[0].text] + rest else rest
  }

  /** Whether two lists share an element (`set(a) & set(b)` is non-empty). */
  function Intersects(a: seq<string>, b: seq<string>): (r: bool)
    ensures r <==> exists x :: x in a && x in b
  {
    if |a| == 0 then false
    else
      assert a == [a[0]] + a[1..];
      a[0] in b || Intersects(a[1..], b)
  }

  /** Some `;`-separated piece of `answer` is the text of a choice of `q`. */
  ghost predicate NamesAChoice(choices: seq<Choice>, q: Question, answer: string)
  {
    exists c :: c in choices && c.question == q.id && c.text in PyStr.Split(answer, ';')
  }

  /** Text questions take any answer. Otherwise the answer is split on `;`;
      it is refused when no piece is a choice text of the question, and a
      `'choice'` question also refuses more than one piece. */
  function ValidateAnswer(data: AnswerData, choices: seq<Choice>): (r: Result<AnswerData>)
    ensures r.Ok? ==> r.value == data
    ensures data.question.questionType == TEXT ==> r.Ok?
    ensures data.question.questionType != TEXT ==>
              (r == Err(FieldError("choices", NO_CHOICE)) <==> !NamesAChoice(choices, data.question, data.answer))
    ensures r.Ok? <==>
              || data.question.questionType == TEXT
              || (&& NamesAChoice(choices, data.question, data.answer)
                  && (data.question.questionType == CHOICE ==> ';' !in data.answer))
    ensures r.Err? ==> r.error == FieldError("choices", NO_CHOICE) || r.error == FieldError("choices", ONLY_ONE_CHOICE)
  {
    if data.question.questionType == TEXT then Ok(data)
    else
      var questionChoices := ChoiceTexts(choices, data.question.id);
      var parts := PyStr.Split(data.answer, ';');
      if !Intersects(questionChoices, parts) then Err(FieldError("choices", NO_CHOICE))
      else if data.question.questionType == CHOICE && |parts| > 1 then Err(FieldError("choices", ONLY_ONE_CHOICE))
      else Ok(data)
  }

  /** A `'choice'` question accepts exactly the answers that contain no `;`
      and are, whole, the text of one of its choices. (A choice text that
      itself contains `;` can therefore never be chosen.) */
  lemma ChoiceAnswerIsOneChoice(data: AnswerData, choices: seq<Choice>)
    requires data.question.questionType == CHOICE
    ensures ValidateAnswer(data, choices).Ok? <==>
              ';' !in data.answer && exists c :: c in choices && c.question == data.question.id && c.text == data.answer
  {
    if ';' !in data.answer {
      PyStr.SplitNoSeparator(data.answer, ';');
    }
  }

  /** A `'choice'` question refuses an answer with two pieces even when both
      name valid choices, and an answer with a trailing `;`. */
  lemma ChoiceRefusesSeveralPieces(q: Question, choices: seq<Choice>, first: string, second: string)
    requires q.questionType == CHOICE
    ensures ValidateAnswer(AnswerData(q, first + ";" + second), choices).Err?
    ensures ValidateAnswer(AnswerData(q, first + ";"), choices).Err?
  {
    assert (first + ";" + second)[|first|] == ';';
    assert (first + ";")[|first|] == ';';
  }

  /** A `'multiple choice'` question accepts any answer one of whose pieces is
      a choice text, however many other pieces follow, valid or not. */
  lemma MultipleChoiceToleratesExtras(q: Question, choices: seq<Choice>, c: Choice, rest: string)
    requires q.questionType == MULTIPLE_CHOICE
    requires c in choices && c.question == q.id && ';' !in c.text
    ensures ValidateAnswer(AnswerData(q, c.text + ";" + rest), choices).Ok?
  {
    PyStr.SplitKeepsLeadingPiece(c.text, rest, ';');
    assert c.text + ";" + rest == c.text + [';'] + rest;
    assert c.text in PyStr.Split(c.text + ";" + rest, ';');
  }

  // ---------------------------------------------------------------------
  // AnswerField.to_representation

  /** A stored answer as the caller sees it: its text for its owner, `''`
      for anyone else. */
  function RenderAnswer(a: Answer, callerId: int): (shown: string)
    ensures shown == a.answer || shown == ""
    ensures a.userId == callerId ==> shown == a.answer
    ensures shown != "" ==> a.userId == callerId
  {
    if a.userId == callerId then a.answer else ""
  }

  /** A question's answers as the caller sees them: one value per answer, in
      order; redaction blanks other users' answers but never drops one. */
  function RenderAnswers(answers: seq<Answer>, callerId: int): (shown: seq<string>)
    ensures |shown| == |answers|
    ensures forall i :: 0 <= i < |answers| ==>
              shown[i] == (if answers[i].userId == callerId then answers[i].answer else "")
  {
    if |answers| == 0 then []
    else [RenderAnswer(answers[0], callerId)] + RenderAnswers(answers[1..], callerId)
  }
}
